=== FILE: README.md ===
# 3D text viewer — Dafny model

The program shows one character as a rotatable 3D object. It has three parts,
and this project models the logic of each:

- **Glyph mesh builder.** A constant table holds nine 7×7 bitmaps, for `0`–`5`, `A`, `B` and `C`.
  - The requested character is upper-cased and looked up. A miss falls back to the `0` bitmap.
  - Every `#` cell becomes one cuboid with edge 0.8 and thickness `extrude_depth` (default 1.0).
  - Row 0 is at the top. A cell's centre is (col − 3.5, 3.5 − row) blocks, so a 7×7 glyph's centres span x ∈ [−2.8, 2.0] and y ∈ [−2.0, 2.8]. The glyph sits half a block left of and above the origin.
  - Each cuboid is drawn as six quadrilaterals over eight corner vertices.
- **Viewer loop.** One iteration of `while running` first drains the queued events.
  - A window close or Escape clears `running`. Space resets both rotations to 0.
  - The held arrow keys then move `rotation_x` / `rotation_y` by 2 degrees each.
- **Selection.** The prompt loop strips each line and exits on `quit` in any case.
  - A single character opens a viewer. Anything else is rejected.
  - `display_3d_text` itself refuses any string whose length is not 1.

Modules, one per part:

- `GlyphTable` (`glyph_table.dfy`): the bitmaps and the total, case-insensitive lookup.
- `Cube` (`cube.dfy`): one cuboid, with its vertices, faces and quadrilaterals (`draw_cube`).
- `GlyphMesh` (`glyph_mesh.dfy`): cell enumeration, block placement, the mesh, and the display list replayed each frame.
- `Viewer` (`viewer.dfy`): the viewer state `{rotationX, rotationY, running}` and the pure step and run functions.
  - Events and held keys are explicit inputs, one `Frame` per loop iteration.
- `Selection` (`selection.dfy`): `strip()`, the `quit` test, the per-line decision, `display_3d_text` and the prompt loop.

Coordinates are Dafny `real`s: the block size 0.8, the depth 1.0 and the `len/2` halvings
(Python 3 true division) are taken as exact rationals. The program itself computes in
binary64 floating point, where 0.8 is not exact: `(0 - 7/2) * 0.8` is `-2.8000000000000003`.
The graphics library then receives 32-bit floats. The model's coordinates are the exact
values those computations approximate; see "## Left out".
Rotations are unbounded `int`s, as Python integers are. They are not reduced modulo 360: holding
right for N iterations adds exactly 2N (`Viewer.HoldingRight`). The `1` bitmap has 12 filled
cells (`GlyphMesh.OneHasTwelveBlocks`).

Python's `upper()` and `lower()` are modelled on ASCII letters only. This gives the same answer on
every question the program asks:

- No non-ASCII character upper-cases to one of the nine table keys.
- No string containing a non-ASCII character lower-cases to `"quit"`.

`strip()` removes the characters Python's `str.isspace` accepts. `Selection.IsSpace` lists them.

## Model

| member | source | states |
|---|---|---|
| `GlyphTable.Lookup` | 3D_viewer.py:126 | The lookup is total and returns a 7×7 table pattern. An exact table key gets its own entry. Any character outside the twelve supported ones (nine keys plus `a`, `b`, `c`) gets the `'0'` entry. |
| `GlyphTable.LookupHitOrDefault` | 3D_viewer.py:126 | If the upper-cased character is a key, that entry is used; otherwise the `'0'` entry is used. The upper-cased character is a key exactly when the character is one of the twelve supported ones. |
| `GlyphTable.LookupIgnoresCase` | 3D_viewer.py:126 | A character and its upper-case form look up the same pattern, and so do an upper-case letter and its lower-case form. |
| `GlyphTable.Lower` | 3D_viewer.py:261 | Lower-casing maps an ASCII upper-case letter to the letter 32 code points above and leaves every other character unchanged. |
| `GlyphTable.Upper` | 3D_viewer.py:126 | Upper-casing maps an ASCII lower-case letter to the letter 32 code points below and leaves every other character unchanged. |
| `GlyphTable.TableWellFormed` | 3D_viewer.py:41-123 | Every table entry has exactly 7 rows of exactly 7 cells, each cell `'#'` or `' '`. |
| `GlyphTable.GlyphsWellFormed` | 3D_viewer.py:42-122 | Each of the nine bitmaps, taken one by one, is a 7×7 grid over `'#'` and `' '`. |
| `Cube.MakeCuboid` | 3D_viewer.py:145-148 | A block's half-extents are equal in x and y, twice the x half-extent is the block size, and twice the z half-extent is the depth. |
| `Cube.LocalVertices` | 3D_viewer.py:154-163 | There are eight vertices. Vertex i has x sign + exactly for i mod 4 in {1,2}, y sign + exactly for i mod 4 in {2,3}, and z sign + exactly for i ≥ 4. |
| `Cube.VerticesAreSignCombinations` | 3D_viewer.py:154-163 | Every vertex is a (±half_size, ±half_size, ±half_depth) combination, and all eight combinations occur. When both half-extents are non-zero the eight vertices are pairwise distinct. |
| `Cube.FacesAreQuads` | 3D_viewer.py:166-173 | The face table `Cube.Faces` has six faces. Each lists four distinct vertex indices, all below 8. |
| `Cube.FacesOnTheirSides` | 3D_viewer.py:154-173 | The four vertices of each face share that face's fixed coordinate (back z−, front z+, bottom y−, top y+, left x−, right x+). For a non-degenerate solid they are all the vertices on that side. |
| `Cube.FacesRunAround` | 3D_viewer.py:154-172 | For non-zero extents, consecutive vertices of every face list, including the last and the first, differ in exactly one coordinate: each face list goes around its face. |
| `Cube.EachVertexOnThreeFaces` | 3D_viewer.py:166-173 | Each of the eight vertex indices appears in exactly three faces. |
| `Cube.DrawCube` | 3D_viewer.py:145-182 | `draw_cube` emits six quadrilaterals of four vertices each. After translation to the block centre, every vertex is a corner of the block lying on its face's side. For a block of non-zero extent the four vertices are distinct and include every corner on that side. Each differs from the next, cyclically, in exactly one coordinate, so each quadrilateral runs around the whole face. |
| `GlyphMesh.RowCells` | 3D_viewer.py:134-135 | Scanning one row yields exactly its `'#'` columns, left to right. There are as many as the row has `'#'` characters. |
| `GlyphMesh.GridCells` | 3D_viewer.py:133-135 | Scanning the rows yields exactly the filled cells, in strictly row-major order. There are as many as the pattern has `'#'` characters. |
| `GlyphMesh.BlocksMatchCells` | 3D_viewer.py:133-141 | A cell's block is among the blocks of a cell list exactly when the cell is in the list. |
| `GlyphMesh.BlocksOrdered` | 3D_viewer.py:133-141 | The blocks of a row-major cell list have their centres in the same scan order. |
| `GlyphMesh.Mesh` | 3D_viewer.py:132-141 | The mesh has one cuboid per `'#'` cell. An in-range cell's block is in the mesh exactly when the cell is filled. Centres run top row first, left to right. Every block lies on z = 0 with half-extents (0.4, 0.4, depth/2). |
| `GlyphMesh.BlockInjective` | 3D_viewer.py:136-138 | Two cells with the same block are the same cell. |
| `GlyphMesh.CenterOrder` | 3D_viewer.py:133-138 | Row-major order on cells is the same as "higher, then further left" order on block centres. |
| `GlyphMesh.Center` | 3D_viewer.py:136-138 | A block centre lies on z = 0. On a 7×7 pattern, x < 0 exactly for columns 0–3 and x > 0 exactly for columns 4–6. y > 0 exactly for rows 0–3 and y < 0 exactly for rows 4–6. Centres stay within x ∈ [−2.8, 2.0] and y ∈ [−2.0, 2.8]. |
| `GlyphMesh.Block` | 3D_viewer.py:136-148 | A cell's cuboid sits at the cell's centre with half-extents (0.4, 0.4, depth/2). |
| `GlyphMesh.GlyphOffset` | 3D_viewer.py:136-137 | On a 7×7 pattern the top-left block is centred at (−2.8, 2.8), the bottom-right one at (2.0, −2.0), and the middle one at (−0.4, 0.4). The glyph is offset half a block left of and above the origin. |
| `GlyphMesh.BlocksDoNotOverlap` | 3D_viewer.py:132-148 | The blocks of two different cells of a 7×7 pattern are a full block apart on x or on y, so they do not overlap. |
| `GlyphMesh.CreateCharacter` | 3D_viewer.py:126-141 | A character yields one cuboid per `'#'` cell of its looked-up pattern, never none, in scan order (higher first, then further left). A cell's block is in the mesh exactly when the cell is filled. Every cuboid has half-extents (0.4, 0.4, depth/2) and a centre on z = 0 with x ∈ [−2.8, 2.0] and y ∈ [−2.0, 2.8]. |
| `GlyphMesh.MeshCellOf` | 3D_viewer.py:133-141 | Every cuboid of a mesh is the block of some filled cell. |
| `GlyphMesh.GlyphBlockCounts` | 3D_viewer.py:41-123 | The cuboid counts per glyph are 0:26, 1:12, 2:27, 3:27, 4:25, 5:28, A:30, B:34, C:24. |
| `GlyphMesh.OneHasTwelveBlocks` | 3D_viewer.py:51-59 | The character `'1'` yields 12 cuboids. |
| `GlyphMesh.MeshIgnoresCase` | 3D_viewer.py:126 | A character draws the same mesh as its upper-case form. In particular `'a'`, `'b'`, `'c'` draw the meshes of `'A'`, `'B'`, `'C'`. |
| `GlyphMesh.UnsupportedDrawsZero` | 3D_viewer.py:126 | Any unsupported character, `'9'` for instance, draws exactly the `'0'` mesh. |
| `GlyphMesh.Concat6` | 3D_viewer.py:176-180 | Laying six-quad groups end to end puts face f of group i at position 6i + f. |
| `GlyphMesh.DisplayList` | 3D_viewer.py:129-143 | Replaying the compiled glyph draws 6 quadrilaterals per cuboid, in mesh order. Face f of cuboid i is that cuboid's `draw_cube` face f. |
| `GlyphMesh.DisplayListFaces` | 3D_viewer.py:150-182 | Every replayed quadrilateral has four vertices. Each is a corner of its own cuboid on the matching side. For a cuboid of non-zero extent the four are distinct, cover every corner on that side, and run along the face's edges. |
| `Viewer.Reset` | 3D_viewer.py:216-219 | Space sets both rotations to 0 and leaves `running` as it was. |
| `Viewer.ResetIdempotent` | 3D_viewer.py:216-219 | Resetting twice is resetting once. Resetting an unrotated view changes nothing. |
| `Viewer.HandleEvent` | 3D_viewer.py:210-219 | After one event, `running` is still set exactly when it was set and the event is neither a close nor Escape. Space zeroes the rotation; any other event leaves it unchanged. |
| `Viewer.HandleEvents` | 3D_viewer.py:209-219 | After all queued events, the loop is still running exactly when it was running and no event stopped it. The rotation is zero if some event was Space; otherwise it is unchanged. |
| `Viewer.HandleInput` | 3D_viewer.py:184-195 | Up alone subtracts 2 from rotation_x and down alone adds 2. Left alone subtracts 2 from rotation_y and right alone adds 2. Both or neither of a pair leaves that axis unchanged. `running` never changes. |
| `Viewer.OppositeKeysCancel` | 3D_viewer.py:188-195 | Holding both keys of each opposite pair leaves the state unchanged. |
| `Viewer.AxesIndependent` | 3D_viewer.py:188-195 | Up/down never change rotation_y. Left/right never change rotation_x. |
| `Viewer.HeldKeysAdd` | 3D_viewer.py:184-195 | Applying two sets of held keys that share no key equals applying their union once. |
| `Viewer.Step` | 3D_viewer.py:209-222 | After one iteration, `running` is still set exactly when it was set and no event stopped the loop. Each rotation is its old value (or 0 after a Space) plus the held-key change. The held keys count even in the iteration that stopped the loop. |
| `Viewer.Run` | 3D_viewer.py:203-239 | A stopped viewer runs no iteration. A running one runs until the first iteration whose events stop it, inclusive, or until the input runs out. No earlier iteration had a stopping event. It is still running at the end exactly when no frame had a stopping event. The final state is the loop body (`Viewer.Steps`) applied to exactly the frames that ran. |
| `Viewer.HoldingRight` | 3D_viewer.py:194-195 | N iterations with only right held add exactly 2N to rotation_y, with no wrap-around. Nothing else changes, and all N iterations run. |
| `Viewer.UpUpLeft` | 3D_viewer.py:188-193 | From a fresh viewer, up, up, left ends at rotation (−4, −2), still running. |
| `Viewer.QuitStillAppliesHeldKeys` | 3D_viewer.py:209-222 | A close event ends the loop after its own iteration. That iteration's held right arrow still adds 2, and later input is never consumed. |
| `Selection.IsSpace` | 3D_viewer.py:259 | The characters `strip()` removes: exactly the code points Python's `str.isspace` accepts. |
| `Selection.TrimStart` | 3D_viewer.py:259 | The result is a suffix of the input. Everything removed is whitespace, and the result does not start with whitespace. |
| `Selection.TrimEnd` | 3D_viewer.py:259 | The result is a prefix of the input. Everything removed is whitespace, and the result does not end with whitespace. |
| `Selection.Strip` | 3D_viewer.py:259 | The result is a contiguous slice of the input with only whitespace on either side, and it neither starts nor ends with whitespace. |
| `Selection.LowerString` | 3D_viewer.py:261 | Lower-casing keeps the length and lower-cases each character in place. |
| `Selection.IsQuitWord` | 3D_viewer.py:261 | The exit test: the stripped line, lower-cased, is exactly `"quit"`. |
| `Selection.QuitWordAnyCase` | 3D_viewer.py:261 | A string lower-cases to `"quit"` exactly when it is q/Q, u/U, i/I, t/T in that order. |
| `Selection.Classify` | 3D_viewer.py:258-267 | A line exits the prompt loop exactly when its stripped form lower-cases to `"quit"`. It opens a viewer exactly when its stripped form has length 1, on that character. Otherwise it is rejected. |
| `Selection.Display3DText` | 3D_viewer.py:243-250 | A viewer is created exactly for a string of length 1. It opens on that character with no rotation, running. |
| `Selection.SessionMesh` | 3D_viewer.py:197-200 | A viewer compiles its character's mesh at the default depth 1.0: one cuboid per `'#'` cell of the looked-up pattern, never none, in scan order, a cell's block present exactly when the cell is filled, every cuboid with half-extents (0.4, 0.4, 0.5). |
| `Selection.Sessions` | 3D_viewer.py:258-267 | The prompt loop opens at most one viewer per line, each starting unrotated and running. |
| `Selection.ShownCharactersAlwaysLaunch` | 3D_viewer.py:245-265 | Inside the prompt loop `display_3d_text` never rejects: every line accepted as a single character opens a viewer on it. |
| `Selection.SingleLine` | 3D_viewer.py:258-267 | A single line opens one viewer on its character if it strips to one character. Otherwise it opens none. |
| `Selection.SessionsAppend` | 3D_viewer.py:258-267 | Lines before any exit word are handled one after another: their viewers come first, in order. |
| `Selection.QuitEndsLoop` | 3D_viewer.py:261-262 | After an exit word, nothing typed later opens a viewer. |
| `Selection.StripPaddedQuit` | 3D_viewer.py:259 | `"  QuIt "` strips to `"QuIt"`. |
| `Selection.StripPaddedLetter` | 3D_viewer.py:259 | `" a "` strips to `"a"`. |
| `Selection.PaddedQuitExits` | 3D_viewer.py:259-262 | The line `"  QuIt "` exits the prompt loop. |
| `Selection.PaddedLetterShows` | 3D_viewer.py:259-265 | The line `" a "` opens a viewer on `'a'`. |
| `Selection.LongOrEmptyRejected` | 3D_viewer.py:264-267 | The lines `"ab"` and `""` are rejected. |

Calling a builder twice with the same arguments gives equal results, because every member here
is a pure function.

## Left out

- Window and OpenGL set-up are not modelled (3D_viewer.py:15-36): window creation, perspective, camera translation, depth test, lighting and colour material. They are calls into a graphics library and hold no logic of the program's own.
- The display list is not compiled into the GL driver (`glNewList`, `glEndList`, `glCallList`). It is modelled as the returned data: `GlyphMesh.Mesh` for the cuboids and `GlyphMesh.DisplayList` for the quadrilaterals replayed each frame.
- The glyph colour is left out. It is a fixed argument passed to the graphics library.
- `glPushMatrix`, `glRotatef`, `glPopMatrix` and the rendering itself are left out. They are floating-point matrix work inside the graphics driver. The model keeps the two rotation angles those calls receive.
- Frame presentation and the 60 Hz clock (`pygame.display.flip`, `clock.tick`) are left out, being timing and I/O. `pygame.quit` is left out too.
- Console I/O is left out: every `print`, and the `input` prompt. Typed lines are an explicit input to `Selection.Sessions`; the rejection messages are not modelled.
- Event polling and keyboard sampling are not modelled. Their results are the `events` and `held` fields of each `Viewer.Frame`.
- The window width and height are left out. They only reach window creation and the perspective set-up (3D_viewer.py:17, 21).
- `Viewer.Run` consumes a finite sequence of frames. The real loop keeps polling forever while running. When the frames run out first, the model stops with `running` still set.
- `GlyphMesh.Center`: coordinates are exact reals. The program's binary64 arithmetic puts the top row and the left column at ±2.8000000000000003, so the ±2.8 bounds hold only up to that rounding.
- `GlyphMesh.CreateCharacter`: its coordinate bounds are those of `GlyphMesh.Center`, on exact reals; they hold for the program's floats only up to rounding.
- `GlyphMesh.GlyphOffset`: the corner centres (−2.8, 2.8) and (2.0, −2.0) are the exact values; in binary64 the first is (−2.8000000000000003, 2.8000000000000003).
- `Selection.Sessions`: when the typed lines run out without an exit word, the program's next `input()` raises an uncaught `EOFError` and it ends with that error. The model just returns the viewers opened so far; the end-of-input error is not modelled.
- `GlyphTable.Lower`: implements Python's `lower()` on ASCII letters only; Python also lower-cases other letters ('À' to 'à'). This is exact for the `quit` test: the lower-case form of every non-ASCII character contains a character outside `q`, `u`, `i`, `t`, so no line containing one lower-cases to `"quit"`.
- `GlyphTable.Upper`: implements Python's `upper()` on ASCII letters only. This is exact for the lookup, because no non-ASCII character upper-cases to a table key.
- `Selection.LowerString`: implements Python's `lower()` on ASCII letters only. This is exact for the `quit` test, because no string containing a non-ASCII character lower-cases to `"quit"`.

=== FILE: cube.dfy ===
/**
 The solid emitted for one filled glyph cell: an axis-aligned cuboid given by
 its centre and half-extents, its eight corner vertices in a fixed index order
 and the six quadrilateral faces that index them.
 */
module Cube {

  datatype Vec3 = Vec3(x: real, y: real, z: real)

  /** An axis-aligned solid, centred at `center`, reaching `half` along each axis. */
  datatype Cuboid = Cuboid(center: Vec3, half: Vec3)

  datatype Side = Back | Front | Bottom | Top | Left | Right

  function Translate(v: Vec3, offset: Vec3): Vec3 {
    Vec3(v.x + offset.x, v.y + offset.y, v.z + offset.z)
  }

  function Sign(positive: bool): real {
    if positive then 1.0 else -1.0
  }

  /** The sign pattern a vertex index stands for: bit 2 is z, and 1, 2, 5, 6 lie on +x, 2, 3, 6, 7 on +y. */
  predicate XPositive(i: nat) { i % 4 == 1 || i % 4 == 2 }
  predicate YPositive(i: nat) { i % 4 == 2 || i % 4 == 3 }
  predicate ZPositive(i: nat) { i >= 4 }

  /** The solid `draw_cube` places for a block of edge `size` and thickness `depth`. */
  function MakeCuboid(center: Vec3, size: real, depth: real): (c: Cuboid)
    ensures c.center == center
    ensures c.half.x == c.half.y
    ensures c.half.x + c.half.x == size && c.half.z + c.half.z == depth
  {
    Cuboid(center, Vec3(size / 2.0, size / 2.0, depth / 2.0))
  }

  /** The eight corners, relative to the centre, listed in the index order the faces refer to. */
  function LocalVertices(halfSize: real, halfDepth: real): (vs: seq<Vec3>)
    ensures |vs| == 8
    ensures forall i :: 0 <= i < |vs| ==>
      vs[i] == Vec3(Sign(XPositive(i)) * halfSize, Sign(YPositive(i)) * halfSize, Sign(ZPositive(i)) * halfDepth)
  {
    [ Vec3(-halfSize, -halfSize, -halfDepth),
      Vec3(halfSize, -halfSize, -halfDepth),
      Vec3(halfSize, halfSize, -halfDepth),
      Vec3(-halfSize, halfSize, -halfDepth),
      Vec3(-halfSize, -halfSize, halfDepth),
      Vec3(halfSize, -halfSize, halfDepth),
      Vec3(halfSize, halfSize, halfDepth),
      Vec3(-halfSize, halfSize, halfDepth) ]
  }

  /** The six faces as four vertex indices each: back, front, bottom, top, left, right. */
  const Faces: seq<seq<nat>> := [[0, 1, 2, 3], [4, 7, 6, 5], [0, 4, 5, 1], [2, 6, 7, 3], [0, 3, 7, 4], [1, 5, 6, 2]]

  const FaceSides: seq<Side> := [Back, Front, Bottom, Top, Left, Right]

  /** `v`, relative to the centre, lies on the plane of `side`. */
  predicate OnSide(v: Vec3, side: Side, halfSize: real, halfDepth: real) {
    match side
    case Back => v.z == -halfDepth
    case Front => v.z == halfDepth
    case Bottom => v.y == -halfSize
    case Top => v.y == halfSize
    case Left => v.x == -halfSize
    case Right => v.x == halfSize
  }

  /** `v`, relative to the centre, is one of the sign combinations (+-halfSize, +-halfSize, +-halfDepth). */
  predicate IsCorner(v: Vec3, halfSize: real, halfDepth: real) {
    && (v.x == halfSize || v.x == -halfSize)
    && (v.y == halfSize || v.y == -halfSize)
    && (v.z == halfDepth || v.z == -halfDepth)
  }

  /** How many of the first `n` faces mention vertex `v`. */
  function FacesWith(v: nat, n: nat): nat
    requires n <= |Faces|
  {
    if n == 0 then 0 else FacesWith(v, n - 1) + (if v in Faces[n - 1] then 1 else 0)
  }

  /** `v` lies at a corner of the cuboid `c`, on the plane of `side`. */
  predicate CornerOnSide(v: Vec3, c: Cuboid, side: Side) {
    var rel := Vec3(v.x - c.center.x, v.y - c.center.y, v.z - c.center.z);
    IsCorner(rel, c.half.x, c.half.z) && OnSide(rel, side, c.half.x, c.half.z)
  }

  /** The corner that follows corner `k` around a quadrilateral. */
  function Next(k: nat): nat {
    (k + 1) % 4
  }

  /** `a` and `b` differ in exactly one coordinate: they are the two ends of an edge of an axis-aligned box. */
  predicate Adjacent(a: Vec3, b: Vec3) {
    || (a.x != b.x && a.y == b.y && a.z == b.z)
    || (a.x == b.x && a.y != b.y && a.z == b.z)
    || (a.x == b.x && a.y == b.y && a.z != b.z)
  }

  /**
   The quadrilaterals `draw_cube` emits for a block: one per face, each the
   face's four corners moved to the block's centre. Every one of them is a
   corner of the block on that face's side. For a block of non-zero extent
   the four are distinct, include every corner on that side, and follow one
   another along the face's edges (each differs from the next, cyclically,
   in one coordinate), so each quadrilateral runs around the whole face.
   Like `draw_cube`, which takes a single edge length, it uses `half.x` for
   both x and y and never reads `half.y`; every block `MakeCuboid` builds
   has `half.x == half.y`.
   */
  function DrawCube(c: Cuboid): (quads: seq<seq<Vec3>>)
    ensures |quads| == |Faces|
    ensures forall f :: 0 <= f < |quads| ==> |quads[f]| == 4
    ensures forall f, k :: 0 <= f < |quads| && 0 <= k < |quads[f]| ==> CornerOnSide(quads[f][k], c, FaceSides[f])
    ensures c.half.x != 0.0 && c.half.z != 0.0 ==>
      forall f, k, l :: 0 <= f < |quads| && 0 <= k < l < |quads[f]| ==> quads[f][k] != quads[f][l]
    ensures c.half.x != 0.0 && c.half.z != 0.0 ==>
      forall f, v :: 0 <= f < |quads| && CornerOnSide(v, c, FaceSides[f]) ==> v in quads[f]
    ensures c.half.x != 0.0 && c.half.z != 0.0 ==>
      forall f, k :: 0 <= f < |quads| && 0 <= k < |quads[f]| ==> Adjacent(quads[f][k], quads[f][Next(k)])
  {
    var vs := LocalVertices(c.half.x, c.half.z);
    FacesOnTheirSides(c.half.x, c.half.z);
    var quads := seq(|Faces|, f requires 0 <= f < |Faces| =>
      seq(4, k requires 0 <= k < 4 => Translate(vs[Faces[f][k]], c.center)));
    DrawCubeWholeFaces(c, quads);
    DrawCubeRunsAround(c, quads);
    quads
  }

  /** Helper: the translated face lists run along the edges of their faces. */
  lemma DrawCubeRunsAround(c: Cuboid, quads: seq<seq<Vec3>>)
    requires |quads| == |Faces|
    requires forall f :: 0 <= f < |Faces| ==> |quads[f]| == 4
    requires forall f, k :: 0 <= f < |Faces| && 0 <= k < 4 ==> quads[f][k] == Translate(LocalVertices(c.half.x, c.half.z)[Faces[f][k]], c.center)
    ensures c.half.x != 0.0 && c.half.z != 0.0 ==>
      forall f, k :: 0 <= f < |quads| && 0 <= k < |quads[f]| ==> Adjacent(quads[f][k], quads[f][Next(k)])
  {
    if c.half.x == 0.0 || c.half.z == 0.0 {
      return;
    }
    var vs := LocalVertices(c.half.x, c.half.z);
    FacesRunAround(c.half.x, c.half.z);
    FacesAreQuads();
    forall f, k | 0 <= f < |quads| && 0 <= k < |quads[f]|
      ensures Adjacent(quads[f][k], quads[f][Next(k)])
    {
      assert Adjacent(vs[Faces[f][k]], vs[Faces[f][Next(k)]]);
    }
  }

  /** Helper: the translated face lists are duplicate-free and cover their sides. */
  lemma DrawCubeWholeFaces(c: Cuboid, quads: seq<seq<Vec3>>)
    requires |quads| == |Faces|
    requires forall f :: 0 <= f < |Faces| ==> |quads[f]| == 4
    requires forall f, k :: 0 <= f < |Faces| && 0 <= k < 4 ==> quads[f][k] == Translate(LocalVertices(c.half.x, c.half.z)[Faces[f][k]], c.center)
    ensures c.half.x != 0.0 && c.half.z != 0.0 ==>
      forall f, k, l :: 0 <= f < |quads| && 0 <= k < l < |quads[f]| ==> quads[f][k] != quads[f][l]
    ensures c.half.x != 0.0 && c.half.z != 0.0 ==>
      forall f, v :: 0 <= f < |quads| && CornerOnSide(v, c, FaceSides[f]) ==> v in quads[f]
  {
    if c.half.x == 0.0 || c.half.z == 0.0 {
      return;
    }
    var vs := LocalVertices(c.half.x, c.half.z);
    VerticesAreSignCombinations(c.half.x, c.half.z);
    FacesAreQuads();
    FacesOnTheirSides(c.half.x, c.half.z);
    forall f, k, l | 0 <= f < |quads| && 0 <= k < l < |quads[f]|
      ensures quads[f][k] != quads[f][l]
    {
      assert Faces[f][k] != Faces[f][l];
      if Faces[f][k] < Faces[f][l] {
        assert vs[Faces[f][k]] != vs[Faces[f][l]];
      } else {
        assert vs[Faces[f][l]] != vs[Faces[f][k]];
      }
    }
    forall f, v | 0 <= f < |quads| && CornerOnSide(v, c, FaceSides[f])
      ensures v in quads[f]
    {
      var rel := Vec3(v.x - c.center.x, v.y - c.center.y, v.z - c.center.z);
      assert rel in vs;
      var i :| 0 <= i < 8 && vs[i] == rel;
      assert i in Faces[f];
      var k :| 0 <= k < 4 && Faces[f][k] == i;
      assert quads[f][k] == v;
    }
  }

  /** Consecutive corners of every face, cyclically, are the two ends of one edge of the solid. */
  lemma FacesRunAround(halfSize: real, halfDepth: real)
    requires halfSize != 0.0 && halfDepth != 0.0
    ensures forall f, k :: 0 <= f < |Faces| && 0 <= k < |Faces[f]| ==>
      Adjacent(LocalVertices(halfSize, halfDepth)[Faces[f][k]], LocalVertices(halfSize, halfDepth)[Faces[f][Next(k)]])
  {
    var vs := LocalVertices(halfSize, halfDepth);
    forall f, k | 0 <= f < |Faces| && 0 <= k < |Faces[f]|
      ensures Adjacent(vs[Faces[f][k]], vs[Faces[f][Next(k)]])
    {
      if f == 0 {} else if f == 1 {} else if f == 2 {} else if f == 3 {} else if f == 4 {} else {}
    }
  }

  /** Every local vertex is a sign combination, all eight combinations occur, and they are distinct for a solid of non-zero extent. */
  lemma VerticesAreSignCombinations(halfSize: real, halfDepth: real)
    ensures forall i :: 0 <= i < 8 ==> IsCorner(LocalVertices(halfSize, halfDepth)[i], halfSize, halfDepth)
    ensures forall v :: IsCorner(v, halfSize, halfDepth) ==> v in LocalVertices(halfSize, halfDepth)
    ensures halfSize != 0.0 && halfDepth != 0.0 ==>
      forall i, j :: 0 <= i < j < 8 ==> LocalVertices(halfSize, halfDepth)[i] != LocalVertices(halfSize, halfDepth)[j]
  {
    var vs := LocalVertices(halfSize, halfDepth);
    forall v | IsCorner(v, halfSize, halfDepth)
      ensures v in vs
    {
      var idx :=
        if v.z == halfDepth then
          if v.y == halfSize then (if v.x == halfSize then 6 else 7) else (if v.x == halfSize then 5 else 4)
        else
          if v.y == halfSize then (if v.x == halfSize then 2 else 3) else (if v.x == halfSize then 1 else 0);
      assert vs[idx] == v;
    }
  }

  /** Each face lists four distinct vertex indices, all below eight. */
  lemma FacesAreQuads()
    ensures |Faces| == 6 == |FaceSides|
    ensures forall f :: 0 <= f < |Faces| ==> |Faces[f]| == 4
    ensures forall f, k :: 0 <= f < |Faces| && 0 <= k < |Faces[f]| ==> Faces[f][k] < 8
    ensures forall f, k, l :: 0 <= f < |Faces| && 0 <= k < l < |Faces[f]| ==> Faces[f][k] != Faces[f][l]
  {
  }

  /**
   The four vertices of a face share its fixed coordinate, and for a solid of
   non-zero extent they are all the vertices on that side.
   */
  lemma FacesOnTheirSides(halfSize: real, halfDepth: real)
    ensures forall f, k :: 0 <= f < |Faces| && 0 <= k < |Faces[f]| ==>
      OnSide(LocalVertices(halfSize, halfDepth)[Faces[f][k]], FaceSides[f], halfSize, halfDepth)
    ensures halfSize != 0.0 && halfDepth != 0.0 ==>
      forall f, i :: 0 <= f < |Faces| && 0 <= i < 8 && OnSide(LocalVertices(halfSize, halfDepth)[i], FaceSides[f], halfSize, halfDepth) ==>
        i in Faces[f]
  {
    var vs := LocalVertices(halfSize, halfDepth);
    forall f, k | 0 <= f < |Faces| && 0 <= k < |Faces[f]|
      ensures OnSide(vs[Faces[f][k]], FaceSides[f], halfSize, halfDepth)
    {
    }
  }

  /** Every corner belongs to exactly three faces. */
  lemma EachVertexOnThreeFaces()
    ensures forall v :: 0 <= v < 8 ==> FacesWith(v, |Faces|) == 3
  {
  }
}

=== FILE: glyph_mesh.dfy ===
/**
 The glyph mesh builder: every '#' cell of a pattern becomes one cuboid of
 edge `BlockSize`, extruded to the requested depth, with row 0 at the top.
 A cell's centre is its column minus half the row width and half the
 pattern height minus its row, in blocks, so on a 7x7 glyph the centres run
 from -2.8 to 2.0 across and from 2.8 down to -2.0: the glyph sits half a
 block left of and above the origin. Cuboids come out in row-major order,
 the order in which the program's nested loops visit cells.
 */
module GlyphMesh {
  import opened GlyphTable
  import opened Cube

  const BlockSize: real := 0.8

  /** The extrusion depth used when the viewer builds its glyph. */
  const DefaultDepth: real := 1.0

  /** A cell of a pattern: row 0 is the top row, column 0 the leftmost. */
  datatype Cell = Cell(row: nat, col: nat)

  predicate Filled(p: Pattern, c: Cell) {
    c.row < |p| && c.col < |p[c.row]| && p[c.row][c.col] == '#'
  }

  /** `a` is visited before `b` by a top-to-bottom, left-to-right scan. */
  predicate Precedes(a: Cell, b: Cell) {
    a.row < b.row || (a.row == b.row && a.col < b.col)
  }

  predicate RowMajor(cs: seq<Cell>) {
    forall i, j :: 0 <= i < j < |cs| ==> Precedes(cs[i], cs[j])
  }

  /** Number of '#' characters in a row. */
  function HashCount(line: string): nat {
    if |line| == 0 then 0 else HashCount(line[..|line| - 1]) + (if line[|line| - 1] == '#' then 1 else 0)
  }

  /** Number of '#' characters in a whole pattern. */
  function FilledCount(p: Pattern): nat {
    if |p| == 0 then 0 else FilledCount(p[..|p| - 1]) + HashCount(p[|p| - 1])
  }

  /** The filled cells among the first `n` columns of row `row`, left to right. */
  function RowCells(line: string, row: nat, n: nat): (cs: seq<Cell>)
    requires n <= |line|
    ensures |cs| == HashCount(line[..n])
    ensures forall c :: c in cs <==> c.row == row && c.col < n && line[c.col] == '#'
    ensures RowMajor(cs)
    decreases n
  {
    if n == 0 then []
    else
      var prev := RowCells(line, row, n - 1);
      assert line[..n][..n - 1] == line[..n - 1];
      if line[n - 1] == '#' then prev + [Cell(row, n - 1)] else prev
  }

  /** The filled cells of the first `m` rows, in row-major order. */
  function GridCells(p: Pattern, m: nat): (cs: seq<Cell>)
    requires m <= |p|
    ensures |cs| == FilledCount(p[..m])
    ensures forall c :: c in cs <==> c.row < m && Filled(p, c)
    ensures RowMajor(cs)
    decreases m
  {
    if m == 0 then []
    else
      var prev := GridCells(p, m - 1);
      var last := RowCells(p[m - 1], m - 1, |p[m - 1]|);
      assert p[..m][..m - 1] == p[..m - 1];
      assert p[m - 1][..|p[m - 1]|] == p[m - 1];
      assert forall i :: 0 <= i < |prev| ==> prev[i] in prev;
      assert forall j :: 0 <= j < |last| ==> last[j] in last;
      prev + last
  }

  /**
   The centre of a cell's block: x = (col - width/2) * BlockSize,
   y = (height/2 - row) * BlockSize, z = 0. On a 7x7 pattern columns 0-3
   lie left of the origin and 4-6 right of it, rows 0-3 above and 4-6
   below, and the centres fill [-2.8, 2.0] across and [-2.0, 2.8] up.
   */
  function Center(p: Pattern, c: Cell): (v: Vec3)
    requires c.row < |p|
    ensures v.z == 0.0
    ensures WellFormed(p) && c.col < Cols ==>
      && (v.x < 0.0 <==> c.col <= 3) && (v.x > 0.0 <==> c.col >= 4)
      && (v.y > 0.0 <==> c.row <= 3) && (v.y < 0.0 <==> c.row >= 4)
      && -2.8 <= v.x <= 2.0 && -2.0 <= v.y <= 2.8
  {
    Vec3((c.col as real - |p[c.row]| as real / 2.0) * BlockSize,
         (|p| as real / 2.0 - c.row as real) * BlockSize,
         0.0)
  }

  /** The cuboid drawn for one cell: a 0.8 x 0.8 x depth solid around the cell's centre. */
  function Block(p: Pattern, c: Cell, depth: real): (b: Cuboid)
    requires c.row < |p|
    ensures b.center == Center(p, c)
    ensures b.half == Vec3(0.4, 0.4, depth / 2.0)
  {
    MakeCuboid(Center(p, c), BlockSize, depth)
  }

  /** `a` comes before `b` in the scan order, read off the centres: higher first, then further left. */
  predicate CenterPrecedes(a: Vec3, b: Vec3) {
    a.y > b.y || (a.y == b.y && a.x < b.x)
  }

  /** Distinct cells of a pattern get distinct blocks, so a block identifies its cell. */
  lemma BlockInjective(p: Pattern, a: Cell, b: Cell, depth: real)
    requires a.row < |p| && b.row < |p|
    requires Block(p, a, depth) == Block(p, b, depth)
    ensures a == b
  {
    assert Center(p, a).y == Center(p, b).y;
    assert a.row == b.row;
    assert Center(p, a).x == Center(p, b).x;
  }

  /** Scan order on cells is scan order on their centres. */
  lemma CenterOrder(p: Pattern, a: Cell, b: Cell)
    requires a.row < |p| && b.row < |p|
    requires Precedes(a, b)
    ensures CenterPrecedes(Center(p, a), Center(p, b))
  {
  }

  /** The blocks of a list of cells, in the same order. */
  function Blocks(p: Pattern, cells: seq<Cell>, depth: real): (cubes: seq<Cuboid>)
    requires forall i :: 0 <= i < |cells| ==> cells[i].row < |p|
    ensures |cubes| == |cells|
    ensures forall i :: 0 <= i < |cells| ==> cubes[i] == Block(p, cells[i], depth)
  {
    seq(|cells|, i requires 0 <= i < |cells| => Block(p, cells[i], depth))
  }

  /** Helper: a cell's block is among the blocks of a cell list exactly when the cell is in the list. */
  lemma BlocksMatchCells(p: Pattern, cells: seq<Cell>, depth: real)
    requires forall i :: 0 <= i < |cells| ==> cells[i].row < |p|
    ensures forall c: Cell :: c.row < |p| ==> (c in cells <==> Block(p, c, depth) in Blocks(p, cells, depth))
  {
    var cubes := Blocks(p, cells, depth);
    forall c: Cell | c.row < |p|
      ensures c in cells <==> Block(p, c, depth) in cubes
    {
      if c in cells {
        var i :| 0 <= i < |cells| && cells[i] == c;
        assert cubes[i] == Block(p, c, depth);
      }
      if Block(p, c, depth) in cubes {
        var i :| 0 <= i < |cubes| && cubes[i] == Block(p, c, depth);
        BlockInjective(p, cells[i], c, depth);
      }
    }
  }

  /** Helper: blocks of a row-major cell list have their centres in scan order. */
  lemma BlocksOrdered(p: Pattern, cells: seq<Cell>, depth: real)
    requires forall i :: 0 <= i < |cells| ==> cells[i].row < |p|
    requires RowMajor(cells)
    ensures forall i, j :: 0 <= i < j < |cells| ==>
      CenterPrecedes(Blocks(p, cells, depth)[i].center, Blocks(p, cells, depth)[j].center)
  {
    var cubes := Blocks(p, cells, depth);
    forall i, j | 0 <= i < j < |cells|
      ensures CenterPrecedes(cubes[i].center, cubes[j].center)
    {
      CenterOrder(p, cells[i], cells[j]);
    }
  }

  /**
   The mesh of a pattern: one block per '#' cell and no other, in row-major
   order, each a BlockSize x BlockSize x depth solid lying on the z = 0 plane.
   */
  function Mesh(p: Pattern, depth: real): (cubes: seq<Cuboid>)
    ensures |cubes| == FilledCount(p)
    ensures forall c: Cell :: c.row < |p| ==> (Filled(p, c) <==> Block(p, c, depth) in cubes)
    ensures forall i, j :: 0 <= i < j < |cubes| ==> CenterPrecedes(cubes[i].center, cubes[j].center)
    ensures forall i :: 0 <= i < |cubes| ==>
      cubes[i].center.z == 0.0 && cubes[i].half == Vec3(BlockSize / 2.0, BlockSize / 2.0, depth / 2.0)
  {
    var cells := GridCells(p, |p|);
    assert p[..|p|] == p;
    assert forall i :: 0 <= i < |cells| ==> cells[i] in cells;
    BlocksMatchCells(p, cells, depth);
    BlocksOrdered(p, cells, depth);
    Blocks(p, cells, depth)
  }

  /**
   The mesh the viewer builds for a typed character: one block per '#' cell
   of the looked-up pattern, extruded to `depth`. It is never empty, and
   every block lies on z = 0 inside the glyph's offset 7x7 grid.
   */
  function CreateCharacter(ch: char, depth: real): (cubes: seq<Cuboid>)
    ensures |cubes| == FilledCount(Lookup(ch)) > 0
    ensures forall c: Cell :: c.row < Rows ==>
      (Filled(Lookup(ch), c) <==> Block(Lookup(ch), c, depth) in cubes)
    ensures forall i, j :: 0 <= i < j < |cubes| ==> CenterPrecedes(cubes[i].center, cubes[j].center)
    ensures forall i :: 0 <= i < |cubes| ==>
      && -2.8 <= cubes[i].center.x <= 2.0
      && -2.0 <= cubes[i].center.y <= 2.8
      && cubes[i].center.z == 0.0
      && cubes[i].half == Vec3(0.4, 0.4, depth / 2.0)
  {
    var p := Lookup(ch);
    GlyphNonEmpty(p);
    MeshBounds(p, depth);
    Mesh(p, depth)
  }

  /** Helper: every glyph of the table has at least one filled cell. */
  lemma GlyphNonEmpty(p: Pattern)
    requires p in Table.Values
    ensures FilledCount(p) > 0
  {
    GlyphBlockCounts();
    var k :| k in Table && Table[k] == p;
  }

  /** Helper: the mesh of a 7x7 pattern stays inside the glyph's offset grid. */
  lemma MeshBounds(p: Pattern, depth: real)
    requires WellFormed(p)
    ensures forall i :: 0 <= i < |Mesh(p, depth)| ==>
      && -2.8 <= Mesh(p, depth)[i].center.x <= 2.0
      && -2.0 <= Mesh(p, depth)[i].center.y <= 2.8
  {
    var cubes := Mesh(p, depth);
    forall i | 0 <= i < |cubes|
      ensures -2.8 <= cubes[i].center.x <= 2.0 && -2.0 <= cubes[i].center.y <= 2.8
    {
      var c := MeshCellOf(p, depth, i);
      assert c.col < Cols;
    }
  }

  /** Where face `f` of the `i`-th cuboid sits in the replayed quadrilateral list. */
  function Slot(i: nat, f: nat): nat {
    6 * i + f
  }

  /** Six-element groups laid end to end. */
  function Concat6<T>(groups: seq<seq<T>>): (flat: seq<T>)
    requires forall i :: 0 <= i < |groups| ==> |groups[i]| == 6
    ensures |flat| == 6 * |groups|
    ensures forall i, f :: 0 <= i < |groups| && 0 <= f < 6 ==> flat[Slot(i, f)] == groups[i][f]
    decreases |groups|
  {
    if |groups| == 0 then []
    else
      var rest := Concat6(groups[1..]);
      var flat := groups[0] + rest;
      assert forall i, f :: 0 <= i < |groups| && 0 <= f < 6 ==> flat[Slot(i, f)] == groups[i][f] by {
        forall i, f | 0 <= i < |groups| && 0 <= f < 6
          ensures flat[Slot(i, f)] == groups[i][f]
        {
          if i > 0 {
            assert Slot(i, f) == 6 + Slot(i - 1, f);
            assert groups[i] == groups[1..][i - 1];
          }
        }
      }
      flat
  }

  /**
   The quadrilaterals drawn when the compiled glyph is replayed: the six faces
   of each cuboid, cuboid after cuboid in mesh order.
   */
  function DisplayList(cubes: seq<Cuboid>): (quads: seq<seq<Vec3>>)
    ensures |quads| == 6 * |cubes|
    ensures forall i, f :: 0 <= i < |cubes| && 0 <= f < 6 ==> quads[Slot(i, f)] == DrawCube(cubes[i])[f]
  {
    Concat6(seq(|cubes|, i requires 0 <= i < |cubes| => DrawCube(cubes[i])))
  }

  /**
   Every replayed quadrilateral has four corners, all on the matching side of
   its own cuboid; for a cuboid of non-zero extent they are four different
   corners, every corner on that side is among them, and they run along the
   face's edges.
   */
  lemma DisplayListFaces(cubes: seq<Cuboid>)
    ensures forall i, f, k :: 0 <= i < |cubes| && 0 <= f < 6 && 0 <= k < 4 ==>
      |DisplayList(cubes)[Slot(i, f)]| == 4 && CornerOnSide(DisplayList(cubes)[Slot(i, f)][k], cubes[i], FaceSides[f])
    ensures forall i, f, k, l ::
      (0 <= i < |cubes| && 0 <= f < 6 && 0 <= k < l < 4 && cubes[i].half.x != 0.0 && cubes[i].half.z != 0.0) ==>
      DisplayList(cubes)[Slot(i, f)][k] != DisplayList(cubes)[Slot(i, f)][l]
    ensures forall i, f, v ::
      (0 <= i < |cubes| && 0 <= f < 6 && cubes[i].half.x != 0.0 && cubes[i].half.z != 0.0
        && CornerOnSide(v, cubes[i], FaceSides[f])) ==>
      v in DisplayList(cubes)[Slot(i, f)]
    ensures forall i, f, k ::
      (0 <= i < |cubes| && 0 <= f < 6 && 0 <= k < 4 && cubes[i].half.x != 0.0 && cubes[i].half.z != 0.0) ==>
      Adjacent(DisplayList(cubes)[Slot(i, f)][k], DisplayList(cubes)[Slot(i, f)][Next(k)])
  {
    var quads := DisplayList(cubes);
    forall i, f | 0 <= i < |cubes| && 0 <= f < 6
      ensures quads[Slot(i, f)] == DrawCube(cubes[i])[f]
    {
    }
  }

  /** Every cuboid of a mesh is the block of some filled cell. */
  lemma MeshCellOf(p: Pattern, depth: real, i: nat) returns (c: Cell)
    requires i < |Mesh(p, depth)|
    ensures Filled(p, c) && Mesh(p, depth)[i] == Block(p, c, depth)
  {
    var cells := GridCells(p, |p|);
    assert p[..|p|] == p;
    c := cells[i];
    assert c in cells;
  }

  /**
   The extreme cells of a 7x7 pattern: the top-left block is centred at
   (-2.8, 2.8) and the bottom-right one at (2.0, -2.0), so the glyph is
   offset half a block to the left of and above the origin.
   */
  lemma GlyphOffset(p: Pattern)
    requires WellFormed(p)
    ensures Center(p, Cell(0, 0)) == Vec3(-2.8, 2.8, 0.0)
    ensures Center(p, Cell(6, 6)) == Vec3(2.0, -2.0, 0.0)
    ensures Center(p, Cell(3, 3)) == Vec3(-0.4, 0.4, 0.0)
  {
  }

  /** Blocks of two different cells of a 7x7 pattern never overlap: their centres are a full block apart on some axis. */
  lemma BlocksDoNotOverlap(p: Pattern, a: Cell, b: Cell, depth: real)
    requires WellFormed(p) && a.row < Rows && b.row < Rows
    requires a != b
    ensures var A := Block(p, a, depth); var B := Block(p, b, depth);
      || A.center.x - B.center.x >= A.half.x + B.half.x
      || B.center.x - A.center.x >= A.half.x + B.half.x
      || A.center.y - B.center.y >= A.half.y + B.half.y
      || B.center.y - A.center.y >= A.half.y + B.half.y
  {
    if a.row == b.row {
      assert a.col != b.col;
      if a.col < b.col {
        assert b.col as real - a.col as real >= 1.0;
      } else {
        assert a.col as real - b.col as real >= 1.0;
      }
    } else if a.row < b.row {
      assert b.row as real - a.row as real >= 1.0;
    } else {
      assert a.row as real - b.row as real >= 1.0;
    }
  }

  function Indicator(ch: char): nat {
    if ch == '#' then 1 else 0
  }

  /** Helper: counting a prefix one cell longer adds that cell. */
  lemma HashCountStep(line: string, k: nat)
    requires k < |line|
    ensures HashCount(line[..k + 1]) == HashCount(line[..k]) + Indicator(line[k])
  {
    assert line[..k + 1][..k] == line[..k];
  }

  /** The number of '#' cells of a seven-cell row, added up cell by cell. */
  function RowSum(line: string): nat
    requires |line| == Cols
  {
    Indicator(line[0]) + Indicator(line[1]) + Indicator(line[2]) + Indicator(line[3])
      + Indicator(line[4]) + Indicator(line[5]) + Indicator(line[6])
  }

  /** The recursive count of a seven-cell row agrees with the cell-by-cell sum. */
  lemma HashCountOfRow(line: string)
    requires |line| == Cols
    ensures HashCount(line) == RowSum(line)
  {
    assert line[..0] == [];
    HashCountStep(line, 0); HashCountStep(line, 1); HashCountStep(line, 2); HashCountStep(line, 3);
    HashCountStep(line, 4); HashCountStep(line, 5); HashCountStep(line, 6);
    assert line[..7] == line;
  }

  /** Helper: counting one more row adds that row's count. */
  lemma FilledCountStep(p: Pattern, k: nat)
    requires k < |p|
    ensures FilledCount(p[..k + 1]) == FilledCount(p[..k]) + HashCount(p[k])
  {
    assert p[..k + 1][..k] == p[..k];
  }

  /** The recursive count of a 7x7 pattern agrees with the sum of its row sums. */
  lemma FilledCountOfGlyph(p: Pattern)
    requires WellFormed(p)
    ensures FilledCount(p) == RowSum(p[0]) + RowSum(p[1]) + RowSum(p[2])
      + RowSum(p[3]) + RowSum(p[4]) + RowSum(p[5]) + RowSum(p[6])
  {
    assert p[..0] == [];
    FilledCountStep(p, 0); FilledCountStep(p, 1); FilledCountStep(p, 2); FilledCountStep(p, 3);
    FilledCountStep(p, 4); FilledCountStep(p, 5); FilledCountStep(p, 6);
    assert p[..7] == p;
    HashCountOfRow(p[0]); HashCountOfRow(p[1]); HashCountOfRow(p[2]); HashCountOfRow(p[3]);
    HashCountOfRow(p[4]); HashCountOfRow(p[5]); HashCountOfRow(p[6]);
  }

  /** The number of cuboids drawn for each glyph of the table. */
  lemma GlyphBlockCounts()
    ensures FilledCount(Zero) == 26
    ensures FilledCount(One) == 12
    ensures FilledCount(Two) == 27
    ensures FilledCount(Three) == 27
    ensures FilledCount(Four) == 25
    ensures FilledCount(Five) == 28
    ensures FilledCount(LetterA) == 30
    ensures FilledCount(LetterB) == 34
    ensures FilledCount(LetterC) == 24
  {
    CountZero();
    CountOne();
    CountTwo();
    CountThree();
    CountFour();
    CountFive();
    CountLetterA();
    CountLetterB();
    CountLetterC();
  }

  lemma CountZero()
    ensures FilledCount(Zero) == 26
  {
    GlyphsWellFormed();
    FilledCountOfGlyph(Zero);
  }

  lemma CountOne()
    ensures FilledCount(One) == 12
  {
    GlyphsWellFormed();
    FilledCountOfGlyph(One);
  }

  lemma CountTwo()
    ensures FilledCount(Two) == 27
  {
    GlyphsWellFormed();
    FilledCountOfGlyph(Two);
  }

  lemma CountThree()
    ensures FilledCount(Three) == 27
  {
    GlyphsWellFormed();
    FilledCountOfGlyph(Three);
  }

  lemma CountFour()
    ensures FilledCount(Four) == 25
  {
    GlyphsWellFormed();
    FilledCountOfGlyph(Four);
  }

  lemma CountFive()
    ensures FilledCount(Five) == 28
  {
    GlyphsWellFormed();
    FilledCountOfGlyph(Five);
  }

  lemma CountLetterA()
    ensures FilledCount(LetterA) == 30
  {
    GlyphsWellFormed();
    FilledCountOfGlyph(LetterA);
  }

  lemma CountLetterB()
    ensures FilledCount(LetterB) == 34
  {
    GlyphsWellFormed();
    FilledCountOfGlyph(LetterB);
  }

  lemma CountLetterC()
    ensures FilledCount(LetterC) == 24
  {
    GlyphsWellFormed();
    FilledCountOfGlyph(LetterC);
  }

  /** The lookup ignores case, so a lower-case letter draws the same mesh as its capital. */
  lemma MeshIgnoresCase(ch: char, depth: real)
    ensures CreateCharacter(ch, depth) == CreateCharacter(Upper(ch), depth)
    ensures CreateCharacter('a', depth) == CreateCharacter('A', depth)
    ensures CreateCharacter('b', depth) == CreateCharacter('B', depth)
    ensures CreateCharacter('c', depth) == CreateCharacter('C', depth)
  {
    LookupIgnoresCase(ch);
    LookupIgnoresCase('A');
    LookupIgnoresCase('B');
    LookupIgnoresCase('C');
  }

  /** A character outside the table draws exactly the '0' mesh. */
  lemma UnsupportedDrawsZero(ch: char, depth: real)
    requires ch !in Supported
    ensures CreateCharacter(ch, depth) == CreateCharacter('0', depth)
    ensures CreateCharacter('9', depth) == CreateCharacter('0', depth)
  {
    assert '0' in Table;
    assert Lookup('0') == Table[DefaultKey];
    assert Lookup(ch) == Table[DefaultKey];
    assert '9' !in Supported;
    assert Lookup('9') == Table[DefaultKey];
  }

  /** The digit one has twelve filled cells, hence twelve cuboids. */
  lemma OneHasTwelveBlocks(depth: real)
    ensures |CreateCharacter('1', depth)| == 12
  {
    assert '1' in Table;
    assert Lookup('1') == One;
    CountOne();
  }
}

=== FILE: glyph_table.dfy ===
/**
 The constant glyph table of the 3D text viewer: nine characters, each drawn
 as a 7x7 bitmap of '#' (filled) and ' ' (empty) cells, and the total lookup
 that upper-cases the requested character and falls back to the '0' glyph.
 */
module GlyphTable {

  /** A glyph bitmap: rows from top to bottom, each a string of cells. */
  type Pattern = seq<string>

  const Rows: nat := 7
  const Cols: nat := 7

  /** The character whose pattern is used when a lookup misses. */
  const DefaultKey: char := '0'

  const Zero: Pattern := [
    "  ###  ",
    " ## ## ",
    "##   ##",
    "##   ##",
    "##   ##",
    " ## ## ",
    "  ###  "
  ]

  const One: Pattern := [
    "   #   ",
    "  ##   ",
    "   #   ",
    "   #   ",
    "   #   ",
    "   #   ",
    " ##### "
  ]

  const Two: Pattern := [
    " ##### ",
    "##   ##",
    "     ##",
    " ##### ",
    "##     ",
    "##     ",
    "#######"
  ]

  const Three: Pattern := [
    " ##### ",
    "##   ##",
    "     ##",
    " ##### ",
    "     ##",
    "##   ##",
    " ##### "
  ]

  const Four: Pattern := [
    "##   ##",
    "##   ##",
    "##   ##",
    "#######",
    "     ##",
    "     ##",
    "     ##"
  ]

  const Five: Pattern := [
    "#######",
    "##     ",
    "##     ",
    "###### ",
    "     ##",
    "##   ##",
    " ##### "
  ]

  const LetterA: Pattern := [
    "  ###  ",
    " ## ## ",
    "##   ##",
    "##   ##",
    "#######",
    "##   ##",
    "##   ##"
  ]

  const LetterB: Pattern := [
    "###### ",
    "##   ##",
    "##   ##",
    "###### ",
    "##   ##",
    "##   ##",
    "###### "
  ]

  const LetterC: Pattern := [
    " ##### ",
    "##   ##",
    "##     ",
    "##     ",
    "##     ",
    "##   ##",
    " ##### "
  ]

  /** The glyph table: the characters that have their own pattern. */
  const Table: map<char, Pattern> := map[
    '0' := Zero,
    '1' := One,
    '2' := Two,
    '3' := Three,
    '4' := Four,
    '5' := Five,
    'A' := LetterA,
    'B' := LetterB,
    'C' := LetterC
  ]

  /** The characters a user may type and get their own glyph (either case of a letter). */
  const Supported: set<char> := {'0', '1', '2', '3', '4', '5', 'A', 'B', 'C', 'a', 'b', 'c'}

  /** A pattern is a 7x7 grid over the alphabet {'#', ' '}. */
  predicate WellFormed(p: Pattern) {
    && |p| == Rows
    && (forall r :: 0 <= r < |p| ==> |p[r]| == Cols)
    && (forall r, c :: 0 <= r < |p| && 0 <= c < |p[r]| ==> p[r][c] == '#' || p[r][c] == ' ')
  }

  predicate IsLowerAscii(ch: char) { 'a' <= ch <= 'z' }

  predicate IsUpperAscii(ch: char) { 'A' <= ch <= 'Z' }

  /** Upper-casing of one character, on the ASCII letters. */
  function Upper(ch: char): (u: char)
    ensures IsLowerAscii(ch) ==> IsUpperAscii(u) && u as int + 32 == ch as int
    ensures !IsLowerAscii(ch) ==> u == ch
  {
    if IsLowerAscii(ch) then (ch as int - 32) as char else ch
  }

  /** Lower-casing of one character, on the ASCII letters. */
  function Lower(ch: char): (l: char)
    ensures IsUpperAscii(ch) ==> IsLowerAscii(l) && l as int == ch as int + 32
    ensures !IsUpperAscii(ch) ==> l == ch
  {
    if IsUpperAscii(ch) then (ch as int + 32) as char else ch
  }

  /**
   The pattern drawn for `ch`: the table entry of its upper-case form, or the
   default '0' entry on a miss. The lookup is total.
   */
  function Lookup(ch: char): (p: Pattern)
    ensures p in Table.Values
    ensures ch !in Supported ==> p == Table[DefaultKey]
    ensures ch in Table ==> p == Table[ch]
    ensures WellFormed(p)
  {
    TableWellFormed();
    var key := Upper(ch);
    if key in Table then Table[key] else Table[DefaultKey]
  }

  /** A seven-cell row over {'#', ' '}, checked cell by cell. */
  predicate RowOk(line: string) {
    && |line| == Cols
    && (line[0] == '#' || line[0] == ' ') && (line[1] == '#' || line[1] == ' ')
    && (line[2] == '#' || line[2] == ' ') && (line[3] == '#' || line[3] == ' ')
    && (line[4] == '#' || line[4] == ' ') && (line[5] == '#' || line[5] == ' ')
    && (line[6] == '#' || line[6] == ' ')
  }

  /** Helper: a pattern of seven good rows is well formed. */
  lemma WellFormedByRows(p: Pattern)
    requires |p| == Rows
    requires RowOk(p[0]) && RowOk(p[1]) && RowOk(p[2]) && RowOk(p[3])
    requires RowOk(p[4]) && RowOk(p[5]) && RowOk(p[6])
    ensures WellFormed(p)
  {
    forall r, c | 0 <= r < |p| && 0 <= c < |p[r]|
      ensures p[r][c] == '#' || p[r][c] == ' '
    {
      var line := p[r];
      assert RowOk(line) by {
        if r == 0 {} else if r == 1 {} else if r == 2 {} else if r == 3 {}
        else if r == 4 {} else if r == 5 {} else {}
      }
      if c == 0 {} else if c == 1 {} else if c == 2 {} else if c == 3 {}
      else if c == 4 {} else if c == 5 {} else {}
    }
  }

  /** Each of the nine patterns is a 7x7 '#'/' ' grid. */
  lemma GlyphsWellFormed()
    ensures WellFormed(Zero) && WellFormed(One) && WellFormed(Two)
    ensures WellFormed(Three) && WellFormed(Four) && WellFormed(Five)
    ensures WellFormed(LetterA) && WellFormed(LetterB) && WellFormed(LetterC)
  {
    WellFormedByRows(Zero);
    WellFormedByRows(One);
    WellFormedByRows(Two);
    WellFormedByRows(Three);
    WellFormedByRows(Four);
    WellFormedByRows(Five);
    WellFormedByRows(LetterA);
    WellFormedByRows(LetterB);
    WellFormedByRows(LetterC);
  }

  /** Every entry of the table is a 7x7 '#'/' ' grid. */
  lemma TableWellFormed()
    ensures forall k :: k in Table ==> WellFormed(Table[k])
  {
    GlyphsWellFormed();
  }

  /** Upper-casing before the lookup makes it case-insensitive. */
  lemma LookupIgnoresCase(ch: char)
    ensures Lookup(ch) == Lookup(Upper(ch))
    ensures IsUpperAscii(ch) ==> Lookup(Lower(ch)) == Lookup(ch)
  {
  }

  /** The lookup picks exactly the table entry of the upper-cased key when there is one. */
  lemma LookupHitOrDefault(ch: char)
    ensures Upper(ch) in Table ==> Lookup(ch) == Table[Upper(ch)]
    ensures Upper(ch) !in Table ==> Lookup(ch) == Table[DefaultKey]
    ensures Upper(ch) in Table <==> ch in Supported
  {
  }
}

=== FILE: selection.dfy ===
/**
 The character selection around the viewer: the prompt loop strips each
 line, ends on "quit" in any letter case, launches a viewer for a single
 character and rejects anything longer or empty; `display_3d_text` itself
 refuses strings whose length is not one.
 */
module Selection {
  import opened GlyphTable
  import opened Cube
  import GlyphMesh
  import Viewer

  /** Whitespace in the sense of Python's `str.isspace`, which `strip()` removes. */
  predicate IsSpace(ch: char) {
    var n := ch as int;
    || 0x09 <= n <= 0x0D || 0x1C <= n <= 0x20 || n == 0x85 || n == 0xA0 || n == 0x1680
    || 0x2000 <= n <= 0x200A || n == 0x2028 || n == 0x2029 || n == 0x202F || n == 0x205F || n == 0x3000
  }

  predicate AllSpace(s: string) {
    forall i :: 0 <= i < |s| ==> IsSpace(s[i])
  }

  /** `s` without its leading whitespace. */
  function TrimStart(s: string): (r: string)
    ensures |r| <= |s| && r == s[|s| - |r|..]
    ensures AllSpace(s[..|s| - |r|])
    ensures |r| > 0 ==> !IsSpace(r[0])
    decreases |s|
  {
    if |s| > 0 && IsSpace(s[0]) then
      var r := TrimStart(s[1..]);
      var k := |s| - |r|;
      assert r == s[k..] by { assert s[1..][k - 1..] == s[k..]; }
      assert AllSpace(s[..k]) by {
        forall i | 0 <= i < k
          ensures IsSpace(s[..k][i])
        {
          if i > 0 { assert s[..k][i] == s[1..][..k - 1][i - 1]; }
        }
      }
      r
    else s
  }

  /** `s` without its trailing whitespace. */
  function TrimEnd(s: string): (r: string)
    ensures |r| <= |s| && r == s[..|r|]
    ensures AllSpace(s[|r|..])
    ensures |r| > 0 ==> !IsSpace(r[|r| - 1])
    decreases |s|
  {
    if |s| > 0 && IsSpace(s[|s| - 1]) then
      var r := TrimEnd(s[..|s| - 1]);
      assert r == s[..|r|] by { assert s[..|s| - 1][..|r|] == s[..|r|]; }
      assert AllSpace(s[|r|..]) by {
        forall i | 0 <= i < |s| - |r|
          ensures IsSpace(s[|r|..][i])
        {
          if i < |s| - 1 - |r| { assert s[|r|..][i] == s[..|s| - 1][|r|..][i]; }
        }
      }
      r
    else s
  }

  /**
   Python's `strip()`: the contiguous middle of `s` left after dropping
   whitespace at both ends; it starts and ends with a non-space.
   */
  function Strip(s: string): (r: string)
    ensures exists lo :: (0 <= lo <= lo + |r| <= |s| && r == s[lo..lo + |r|]
                          && AllSpace(s[..lo]) && AllSpace(s[lo + |r|..]))
    ensures |r| > 0 ==> !IsSpace(r[0]) && !IsSpace(r[|r| - 1])
  {
    var t := TrimStart(s);
    var r := TrimEnd(t);
    StripWitness(s, t, r);
    r
  }

  /** Helper: the offset at which TrimStart cut `s` is the witness for Strip. */
  lemma StripWitness(s: string, t: string, r: string)
    requires |t| <= |s| && t == s[|s| - |t|..] && AllSpace(s[..|s| - |t|])
    requires |t| > 0 ==> !IsSpace(t[0])
    requires |r| <= |t| && r == t[..|r|] && AllSpace(t[|r|..])
    requires |r| > 0 ==> !IsSpace(r[|r| - 1])
    ensures exists lo :: (0 <= lo <= lo + |r| <= |s| && r == s[lo..lo + |r|]
                          && AllSpace(s[..lo]) && AllSpace(s[lo + |r|..]))
    ensures |r| > 0 ==> !IsSpace(r[0]) && !IsSpace(r[|r| - 1])
  {
    assert |r| > 0 ==> r[0] == t[0];
    var lo := |s| - |t|;
    assert r == s[lo..lo + |r|];
    assert s[lo + |r|..] == t[|r|..];
  }

  /** Lower-casing of a string, letter by letter. */
  function LowerString(s: string): (l: string)
    ensures |l| == |s|
    ensures forall i :: 0 <= i < |s| ==> l[i] == Lower(s[i])
  {
    seq(|s|, i requires 0 <= i < |s| => Lower(s[i]))
  }

  /** The prompt's exit word test: `line.lower() == 'quit'`. */
  predicate IsQuitWord(s: string) {
    LowerString(s) == "quit"
  }

  /** The exit word in any mixture of cases, and nothing else, lower-cases to "quit". */
  lemma QuitWordAnyCase(s: string)
    ensures IsQuitWord(s) <==>
      |s| == 4 && (s[0] == 'q' || s[0] == 'Q') && (s[1] == 'u' || s[1] == 'U')
        && (s[2] == 'i' || s[2] == 'I') && (s[3] == 't' || s[3] == 'T')
  {
    if |s| == 4 && (s[0] == 'q' || s[0] == 'Q') && (s[1] == 'u' || s[1] == 'U')
        && (s[2] == 'i' || s[2] == 'I') && (s[3] == 't' || s[3] == 'T') {
      assert LowerString(s) == "quit";
    }
  }

  /** What the prompt loop does with one input line. */
  datatype Command = Exit | Show(ch: char) | Retry

  /** The prompt loop's decision: exit on "quit", show a lone character, ask again otherwise. */
  function Classify(line: string): (c: Command)
    ensures c == Exit <==> IsQuitWord(Strip(line))
    ensures c.Show? <==> |Strip(line)| == 1
    ensures c.Show? ==> Strip(line) == [c.ch]
  {
    var s := Strip(line);
    if IsQuitWord(s) then Exit
    else if |s| == 1 then Show(s[0])
    else Retry
  }

  datatype Option<T> = None | Some(value: T)

  /** A launched viewer: the character it was opened on and its loop state on entry. */
  datatype Session = Session(character: char, state: Viewer.State)

  /**
   The mesh a session compiles once and draws every frame: one 0.8 x 0.8 x 1.0
   block per '#' cell of its character's pattern, at the default depth.
   */
  function SessionMesh(session: Session): (mesh: seq<Cuboid>)
    ensures |mesh| == GlyphMesh.FilledCount(Lookup(session.character)) > 0
    ensures forall c: GlyphMesh.Cell :: c.row < Rows ==>
      (GlyphMesh.Filled(Lookup(session.character), c) <==>
        GlyphMesh.Block(Lookup(session.character), c, 1.0) in mesh)
    ensures forall i, j :: 0 <= i < j < |mesh| ==> GlyphMesh.CenterPrecedes(mesh[i].center, mesh[j].center)
    ensures forall i :: 0 <= i < |mesh| ==> mesh[i].half == Vec3(0.4, 0.4, 0.5)
  {
    GlyphMesh.CreateCharacter(session.character, GlyphMesh.DefaultDepth)
  }

  /** `display_3d_text`: a fresh viewer on a one-character string, none for any other length. */
  function Display3DText(character: string): (r: Option<Session>)
    ensures r.Some? <==> |character| == 1
    ensures r.Some? ==> (r.value.state == Viewer.Initial && [r.value.character] == character)
  {
    if |character| != 1 then None
    else Some(Session(character[0], Viewer.Initial))
  }

  /**
   The `__main__` prompt loop over the lines the user types: the viewers it
   launches, in order, up to the first exit word.
   */
  function Sessions(lines: seq<string>): (r: seq<Session>)
    ensures |r| <= |lines|
    ensures forall i :: 0 <= i < |r| ==> r[i].state == Viewer.Initial
    decreases |lines|
  {
    if |lines| == 0 || Classify(lines[0]) == Exit then []
    else LineSessions(lines[0]) + Sessions(lines[1..])
  }

  /** The viewer one line other than an exit word opens: one for a lone character, none otherwise. */
  function LineSessions(line: string): (r: seq<Session>)
    ensures |r| <= 1
    ensures forall i :: 0 <= i < |r| ==> r[i].state == Viewer.Initial
  {
    match Classify(line)
    case Show(ch) => Launched(Display3DText([ch]))
    case _ => []
  }

  /** The viewer a call to `display_3d_text` opened, if any. */
  function Launched(r: Option<Session>): (s: seq<Session>)
    ensures |s| <= 1
    ensures r.Some? ==> s == [r.value]
    ensures r.None? ==> s == []
  {
    if r.Some? then [r.value] else []
  }

  /** Inside the prompt loop, `display_3d_text` never rejects: its length guard only matters to other callers. */
  lemma ShownCharactersAlwaysLaunch(line: string)
    requires Classify(line).Show?
    ensures Display3DText(Strip(line)).Some?
    ensures Display3DText(Strip(line)).value.character == Classify(line).ch
  {
  }

  /** One line on its own: an exit word or a rejected line launches nothing, a lone character launches its glyph. */
  lemma SingleLine(line: string)
    ensures Classify(line).Show? ==>
      Sessions([line]) == [Session(Classify(line).ch, Viewer.Initial)]
    ensures !Classify(line).Show? ==> Sessions([line]) == []
  {
    assert [line][1..] == [];
  }

  /** Helper: concatenation regroups freely. */
  lemma AppendAssoc<T>(x: seq<T>, y: seq<T>, z: seq<T>)
    ensures x + (y + z) == (x + y) + z
  {
  }

  /** Helper: a line other than an exit word contributes its viewer ahead of the rest. */
  lemma SessionsCons(lines: seq<string>)
    requires |lines| > 0 && Classify(lines[0]) != Exit
    ensures Sessions(lines) == LineSessions(lines[0]) + Sessions(lines[1..])
  {
  }

  /** Lines before any exit word run one after the other: their viewers come first. */
  lemma {:induction false} SessionsAppend(a: seq<string>, b: seq<string>)
    requires forall i :: 0 <= i < |a| ==> Classify(a[i]) != Exit
    ensures Sessions(a + b) == Sessions(a) + Sessions(b)
    decreases |a|
  {
    if |a| > 0 {
      var ab := a + b;
      assert ab[0] == a[0] && ab[1..] == a[1..] + b;
      assert Classify(a[0]) != Exit;
      assert forall i :: 0 <= i < |a[1..]| ==> Classify(a[1..][i]) != Exit by {
        forall i | 0 <= i < |a[1..]| ensures Classify(a[1..][i]) != Exit {
          assert a[1..][i] == a[i + 1];
        }
      }
      SessionsAppend(a[1..], b);
      SessionsCons(a);
      SessionsCons(ab);
      AppendAssoc(LineSessions(a[0]), Sessions(a[1..]), Sessions(b));
    } else {
      assert a + b == b;
      assert Sessions(a) == [];
    }
  }

  /** An exit word ends the loop: nothing typed after it launches a viewer. */
  lemma {:induction false} QuitEndsLoop(a: seq<string>, quit: string, b: seq<string>)
    requires IsQuitWord(Strip(quit))
    ensures Sessions(a + [quit] + b) == Sessions(a)
    decreases |a|
  {
    if |a| > 0 {
      assert (a + [quit] + b)[0] == a[0];
      assert (a + [quit] + b)[1..] == a[1..] + [quit] + b;
      QuitEndsLoop(a[1..], quit, b);
    } else {
      assert (a + [quit] + b)[0] == quit;
    }
  }

  /** Helper: one unfolding step of TrimStart. */
  lemma TrimStartUnfold(s: string)
    ensures |s| > 0 && IsSpace(s[0]) ==> TrimStart(s) == TrimStart(s[1..])
    ensures |s| == 0 || !IsSpace(s[0]) ==> TrimStart(s) == s
  {
  }

  /** Helper: one unfolding step of TrimEnd. */
  lemma TrimEndUnfold(s: string)
    ensures |s| > 0 && IsSpace(s[|s| - 1]) ==> TrimEnd(s) == TrimEnd(s[..|s| - 1])
    ensures |s| == 0 || !IsSpace(s[|s| - 1]) ==> TrimEnd(s) == s
  {
  }

  /** `"  QuIt "` strips to `"QuIt"`. */
  lemma StripPaddedQuit()
    ensures Strip("  QuIt ") == "QuIt"
  {
    var s0, s1, s2 := "  QuIt ", " QuIt ", "QuIt ";
    assert IsSpace(' ') && !IsSpace('Q') && !IsSpace('t');
    assert s0[0] == ' ' && s0[1..] == s1;
    assert s1[0] == ' ' && s1[1..] == s2;
    assert s2[0] == 'Q' && s2[|s2| - 1] == ' ' && s2[..|s2| - 1] == "QuIt";
    assert "QuIt"[3] == 't';
    TrimStartUnfold(s0);
    TrimStartUnfold(s1);
    TrimStartUnfold(s2);
    TrimEndUnfold(s2);
    TrimEndUnfold("QuIt");
  }

  /** `" a "` strips to `"a"`. */
  lemma StripPaddedLetter()
    ensures Strip(" a ") == "a"
  {
    var s0, s1 := " a ", "a ";
    assert IsSpace(' ') && !IsSpace('a');
    assert s0[0] == ' ' && s0[1..] == s1;
    assert s1[0] == 'a' && s1[|s1| - 1] == ' ' && s1[..|s1| - 1] == "a";
    TrimStartUnfold(s0);
    TrimStartUnfold(s1);
    TrimEndUnfold(s1);
    TrimEndUnfold("a");
  }

  /** The prompt exits on `"  QuIt "`. */
  lemma PaddedQuitExits()
    ensures Classify("  QuIt ") == Exit
  {
    StripPaddedQuit();
    QuitWordAnyCase("QuIt");
  }

  /** The prompt shows `'a'` for `" a "`. */
  lemma PaddedLetterShows()
    ensures Classify(" a ") == Show('a')
  {
    StripPaddedLetter();
    QuitWordAnyCase("a");
  }

  /** The prompt rejects `"ab"` and the empty line. */
  lemma LongOrEmptyRejected()
    ensures Classify("ab") == Retry
    ensures Classify("") == Retry
  {
    assert !IsSpace('a') && !IsSpace('b');
    assert TrimStart("ab") == "ab" && TrimEnd("ab") == "ab";
    QuitWordAnyCase("ab");
    QuitWordAnyCase("");
  }
}

=== FILE: viewer.dfy ===
/**
 The interactive viewer as a pure state machine. One iteration of the render
 loop first drains the pending events (window close or Escape stop the loop,
 Space resets the rotation), then applies the held arrow keys, and the loop
 runs while its `running` flag is set. Events and held keys are inputs; the
 drawing itself is not modelled here.
 */
module Viewer {

  /** Degrees added per iteration for each held arrow key. */
  const RotationSpeed: int := 2

  /** Rotation about the x and y axes, in whole degrees, and the loop flag. */
  datatype State = State(rotationX: int, rotationY: int, running: bool)

  /** Keys that matter when they arrive as key-down events. */
  datatype Key = Escape | Space | OtherKey

  datatype Event = Quit | KeyDown(key: Key) | OtherEvent

  /** The arrow keys held down when the iteration samples the keyboard. */
  datatype Held = Held(up: bool, down: bool, left: bool, right: bool)

  /** Everything one loop iteration consumes: the queued events, then the held keys. */
  datatype Frame = Frame(events: seq<Event>, held: Held)

  /** The outcome of running the loop over a sequence of frames: the last state and how many iterations ran. */
  datatype Outcome = Outcome(final: State, iterations: nat)

  /** A fresh viewer about to enter its loop: no rotation, running. */
  const Initial: State := State(0, 0, true)

  predicate Stops(e: Event) {
    e == Quit || e == KeyDown(Escape)
  }

  predicate Resets(e: Event) {
    e == KeyDown(Space)
  }

  predicate HasStop(es: seq<Event>) {
    exists i :: 0 <= i < |es| && Stops(es[i])
  }

  predicate HasReset(es: seq<Event>) {
    exists i :: 0 <= i < |es| && Resets(es[i])
  }

  /** Change of rotation_x from the held keys: down turns one way, up the other. */
  function DeltaX(h: Held): int {
    (if h.down then RotationSpeed else 0) - (if h.up then RotationSpeed else 0)
  }

  /** Change of rotation_y from the held keys: right turns one way, left the other. */
  function DeltaY(h: Held): int {
    (if h.right then RotationSpeed else 0) - (if h.left then RotationSpeed else 0)
  }

  /** The Space action: both rotations back to zero, the loop flag untouched. */
  function Reset(s: State): (r: State)
    ensures r.rotationX == 0 && r.rotationY == 0
    ensures r.running == s.running
  {
    s.(rotationX := 0, rotationY := 0)
  }

  /** One queued event: close and Escape clear the loop flag, Space resets, anything else is ignored. */
  function HandleEvent(s: State, e: Event): (r: State)
    ensures r.running == (s.running && !Stops(e))
    ensures Resets(e) ==> r.rotationX == 0 && r.rotationY == 0
    ensures !Resets(e) ==> r.rotationX == s.rotationX && r.rotationY == s.rotationY
  {
    match e
    case Quit => s.(running := false)
    case KeyDown(k) =>
      if k == Escape then s.(running := false)
      else if k == Space then Reset(s)
      else s
    case OtherEvent => s
  }

  /**
   All queued events, in order. The loop keeps going only if none of them
   stops it; a Space anywhere leaves the rotation at zero (no event after a
   Space can change it again), and without one the rotation is untouched.
   */
  function HandleEvents(s: State, es: seq<Event>): (r: State)
    ensures r.running == (s.running && !HasStop(es))
    ensures HasReset(es) ==> r.rotationX == 0 && r.rotationY == 0
    ensures !HasReset(es) ==> r.rotationX == s.rotationX && r.rotationY == s.rotationY
    decreases |es|
  {
    if |es| == 0 then s
    else
      var r := HandleEvents(HandleEvent(s, es[0]), es[1..]);
      assert HasStop(es) <==> Stops(es[0]) || HasStop(es[1..]) by {
        if HasStop(es[1..]) {
          var i :| 0 <= i < |es[1..]| && Stops(es[1..][i]);
          assert Stops(es[i + 1]);
        }
        if HasStop(es) && !Stops(es[0]) {
          var i :| 0 <= i < |es| && Stops(es[i]);
          assert es[1..][i - 1] == es[i];
        }
      }
      assert HasReset(es) <==> Resets(es[0]) || HasReset(es[1..]) by {
        if HasReset(es[1..]) {
          var i :| 0 <= i < |es[1..]| && Resets(es[1..][i]);
          assert Resets(es[i + 1]);
        }
        if HasReset(es) && !Resets(es[0]) {
          var i :| 0 <= i < |es| && Resets(es[i]);
          assert es[1..][i - 1] == es[i];
        }
      }
      r
  }

  /**
   The held arrow keys, checked one after another: up and down move
   rotation_x, left and right move rotation_y, each by RotationSpeed.
   */
  function HandleInput(s: State, h: Held): (r: State)
    ensures r.running == s.running
    ensures h.up && !h.down ==> r.rotationX == s.rotationX - RotationSpeed
    ensures h.down && !h.up ==> r.rotationX == s.rotationX + RotationSpeed
    ensures h.up == h.down ==> r.rotationX == s.rotationX
    ensures h.left && !h.right ==> r.rotationY == s.rotationY - RotationSpeed
    ensures h.right && !h.left ==> r.rotationY == s.rotationY + RotationSpeed
    ensures h.left == h.right ==> r.rotationY == s.rotationY
  {
    var s1 := if h.up then s.(rotationX := s.rotationX - RotationSpeed) else s;
    var s2 := if h.down then s1.(rotationX := s1.rotationX + RotationSpeed) else s1;
    var s3 := if h.left then s2.(rotationY := s2.rotationY - RotationSpeed) else s2;
    if h.right then s3.(rotationY := s3.rotationY + RotationSpeed) else s3
  }

  /**
   One iteration of the loop: events first, then the held keys, which are
   applied even in the iteration whose events stopped the loop.
   */
  function Step(s: State, frame: Frame): (r: State)
    ensures r.running == (s.running && !HasStop(frame.events))
    ensures r.rotationX == (if HasReset(frame.events) then 0 else s.rotationX) + DeltaX(frame.held)
    ensures r.rotationY == (if HasReset(frame.events) then 0 else s.rotationY) + DeltaY(frame.held)
  {
    HandleInput(HandleEvents(s, frame.events), frame.held)
  }

  /** The loop body applied to every frame in turn, with no early exit. */
  function Steps(s: State, frames: seq<Frame>): State
    decreases |frames|
  {
    if |frames| == 0 then s else Steps(Step(s, frames[0]), frames[1..])
  }

  /**
   The `while running` loop fed with `frames`, one per iteration. It stops
   at the first iteration whose events stop it (after finishing that
   iteration), or when the frames run out. Its final state is the loop body
   folded over exactly the iterations that ran.
   */
  function Run(s: State, frames: seq<Frame>): (r: Outcome)
    ensures r.iterations <= |frames|
    ensures r.final == Steps(s, frames[..r.iterations])
    ensures !s.running ==> r == Outcome(s, 0)
    ensures r.final.running ==> r.iterations == |frames|
    ensures s.running ==> (r.final.running <==> forall i :: 0 <= i < |frames| ==> !HasStop(frames[i].events))
    ensures s.running ==> forall i :: 0 <= i < r.iterations - 1 ==> !HasStop(frames[i].events)
    ensures s.running && !r.final.running ==> 1 <= r.iterations && HasStop(frames[r.iterations - 1].events)
    decreases |frames|
  {
    if !s.running || |frames| == 0 then
      assert frames[..0] == [];
      Outcome(s, 0)
    else
      var rest := Run(Step(s, frames[0]), frames[1..]);
      assert forall i :: 1 <= i < |frames| ==> frames[1..][i - 1] == frames[i];
      var ran := frames[..rest.iterations + 1];
      assert ran[0] == frames[0] && ran[1..] == frames[1..][..rest.iterations];
      Outcome(rest.final, rest.iterations + 1)
  }

  /** Opposite arrow keys held together cancel out. */
  lemma OppositeKeysCancel(s: State, h: Held)
    requires h.up == h.down && h.left == h.right
    ensures HandleInput(s, h) == s
  {
  }

  /** Up and down never touch rotation_y; left and right never touch rotation_x. */
  lemma AxesIndependent(s: State, up: bool, down: bool, left: bool, right: bool)
    ensures HandleInput(s, Held(up, down, false, false)).rotationY == s.rotationY
    ensures HandleInput(s, Held(false, false, left, right)).rotationX == s.rotationX
  {
  }

  /** Held keys combine additively: two sets of keys with no key in common act like their union. */
  lemma HeldKeysAdd(s: State, a: Held, b: Held)
    requires !(a.up && b.up) && !(a.down && b.down) && !(a.left && b.left) && !(a.right && b.right)
    ensures HandleInput(HandleInput(s, a), b)
      == HandleInput(s, Held(a.up || b.up, a.down || b.down, a.left || b.left, a.right || b.right))
  {
  }

  /** Resetting twice is resetting once, and resetting an unrotated view changes nothing. */
  lemma ResetIdempotent(s: State)
    ensures Reset(Reset(s)) == Reset(s)
    ensures s.rotationX == 0 && s.rotationY == 0 ==> Reset(s) == s
  {
  }

  /** `n` iterations with no events and only the right arrow held. */
  function RightFrames(n: nat): (frames: seq<Frame>)
    ensures |frames| == n
    ensures forall i :: 0 <= i < n ==> frames[i] == Frame([], Held(false, false, false, true))
  {
    seq(n, i => Frame([], Held(false, false, false, true)))
  }

  /** Holding right for `n` iterations adds exactly 2n degrees to rotation_y, with no wrap-around, and leaves the rest alone. */
  lemma {:induction false} HoldingRight(s: State, n: nat)
    requires s.running
    ensures Run(s, RightFrames(n)) == Outcome(s.(rotationY := s.rotationY + RotationSpeed * n), n)
    decreases n
  {
    if n > 0 {
      var frames := RightFrames(n);
      assert !HasStop(frames[0].events) && !HasReset(frames[0].events);
      var next := Step(s, frames[0]);
      assert next == s.(rotationY := s.rotationY + RotationSpeed);
      assert frames[1..] == RightFrames(n - 1);
      HoldingRight(next, n - 1);
    }
  }

  /** Up, up, then left from a fresh viewer ends at rotation (-4, -2), still running. */
  lemma UpUpLeft()
    ensures Run(Initial, [Frame([], Held(true, false, false, false)),
                          Frame([], Held(true, false, false, false)),
                          Frame([], Held(false, false, true, false))])
      == Outcome(State(-4, -2, true), 3)
  {
    var f1 := Frame([], Held(true, false, false, false));
    var f3 := Frame([], Held(false, false, true, false));
    var frames := [f1, f1, f3];
    assert frames[1..] == [f1, f3];
    assert frames[1..][1..] == [f3];
    assert frames[1..][1..][1..] == [];
  }

  /**
   A close event ends the loop after the iteration it arrives in: the held
   key of that iteration is still applied, and later frames are never used.
   */
  lemma QuitStillAppliesHeldKeys(later: seq<Frame>)
    ensures Run(Initial, [Frame([Quit], Held(false, false, false, true))] + later)
      == Outcome(State(0, 2, false), 1)
  {
    var first := Frame([Quit], Held(false, false, false, true));
    var frames := [first] + later;
    assert frames[0] == first && frames[1..] == later;
    assert HasStop(first.events) by { assert Stops(first.events[0]); }
    assert !HasReset(first.events);
  }
}
